=== FILE: README.md ===
# HTTP/1.x request/response layer of a small web server, in Dafny

This project models the protocol layer of a small multi-threaded Rust web server:

- **Token conversion** (`src/http_request.rs`). The closed enums `HttpMethod` {Get, Post} and `HttpProtocol` {Http11, Http2} each have an exact, case-sensitive conversion from strings. The protocol also has a renderer.
- **The request parser** (`parse_request`, `src/server.rs`). It tokenises the request line on whitespace. It reads header lines until the first empty line or the end of input, splits each one on `:` and inserts it into a map.
- **Response construction and rendering** (`src/http_response.rs`). `from_html` derives `Content-Type` and `Content-Length`. `status_headers_and_data` renders the status line, the header lines and the body.
- **The decision logic of `handle_connection`** (`src/main.rs`). It parses, routes `(method, path)` to a page and a status, reads the page and builds the response. When parsing or reading fails, nothing is written.

Everything is pure. The connection is the sequence of items that `BufRead::lines` yields (`Server.LineRead`), and a read failure is one of those items. Page contents are a `map<string, string>` from file path to text, where a missing key means a failed read. The header map's iteration order is an explicit parameter `order`, constrained by `HttpResponse.IsOrdering` to list every key exactly once. Each property is therefore proved for every order a `HashMap` might use.

Modules, one per concern:

| module | file | contents |
|---|---|---|
| `Wrappers` | wrappers.dfy | `Option`, `Result` |
| `Text` | text.dfy | the `str` operations the parser uses: `split_whitespace`, `trim`, `split(':')`, `join`, and `char::is_whitespace` as the Unicode White_Space set |
| `Decimal` | decimal.dfy | `to_string` on lengths, and a reader that parses it back |
| `Utf8` | utf8.dfy | UTF-8 byte length per section 3 of RFC 3629 |
| `Lines` | lines.dfy | how `BufRead::lines` cuts bytes into lines (split at LF, drop one CR before it, no empty line after a final LF), taken as an assumption about the standard library |
| `Framing` | framing.dfy | where a client finds the first CRLF CRLF, and with it the body |
| `HttpRequest` | http_request.dfy | methods, protocols, the request record |
| `Server` | server.dfy | `parse_request` and its error kinds |
| `HttpResponse` | http_response.dfy | statuses, `from_html`, rendering |
| `Handler` | handler.dfy | routing and `handle_connection` |
| `Wire` | wire.dfy | properties that join the writer, the parser and the handler |

Where the code departs from what its error names and section 5 of RFC 9112 (field syntax) suggest, the model follows the code:
- A header line without `:` fails with `MissingHeaderValue`, carrying the whole line. It does not fail with `MissingHeaderName`, which no input can produce.
- A header value is the trimmed text between the first and the second colon. Anything after a second colon is dropped. The value is not everything after the first colon.
- An unknown protocol token is reported with the `NotSupportedMethod` error kind, the same kind as an unknown method. No separate protocol error exists.
- `"X-Empty:"` is accepted with an empty value.

## Model

| member | source | states |
|---|---|---|
| HttpRequest.MethodFromToken | src/http_request.rs:29-35 | accepts exactly "GET" and "POST", and the accepted method renders back to the token it came from; any other token fails with `NotSupportedMethod` carrying that exact token |
| HttpRequest.MethodRoundTrip | src/http_request.rs:30-32 | every method's wire token converts back to that method |
| HttpRequest.CaseSensitive | src/http_request.rs:30-33 | matching is case-sensitive: "get" and "http/1.1" are rejected, and the error carries the token unchanged |
| HttpRequest.ProtocolFromToken | src/http_request.rs:47-53 | accepts exactly "HTTP/1.1" and "HTTP/2", and `Display` of the result is the token itself; any other token fails with the method error kind carrying the token |
| HttpRequest.ProtocolRoundTrip | src/http_request.rs:56-63 | converting the display of any protocol gives that protocol back |
| HttpRequest.DisplayProtocolInjective | src/http_request.rs:56-63 | distinct protocols display as distinct tokens |
| Server.ParseRequestLine | src/server.rs:45-50 | `MissingHttpMethod` exactly when the line is all whitespace. Errors follow a fixed order: unsupported method before missing path, then missing protocol, then unsupported protocol. Success exactly when token 1 is GET/POST and token 3 is HTTP/1.1 or HTTP/2; then method and protocol render as tokens 1 and 3 and the path is token 2 |
| Server.ParseHeaderLine | src/server.rs:69-76 | fails exactly when the line has no colon, with `MissingHeaderValue` of the whole line; otherwise the name is the untrimmed text before the first colon and the value is the trimmed text up to the second colon |
| Server.ParseHeaders | src/server.rs:52-77 | the header loop fails only with a read error or a missing value; a read error on the line it is looking at fails it with `Io`; every key it started from is still a key of the map it returns |
| Server.ParseRequest | src/server.rs:36-85 | `EmptyRequest` exactly for no lines; `MissingHttpMethod` exactly for a blank or whitespace-only first line; `MissingHeaderName` never occurs; a read failure on the first line gives `Io`; a failing request line gives its own error; otherwise the result succeeds exactly when the header loop does, carrying the loop's error when it fails; a success is the request line's tokens plus the header loop's map |
| Server.HeadersStopAtBlankLine | src/server.rs:54-67 | the header loop's result does not depend on anything after the first empty line |
| Server.RequestStopsAtBlankLine | src/server.rs:52-67 | the whole parse ignores everything after the empty line that ends the headers |
| Server.NoHeaderSection | src/server.rs:52-67 | a valid request line followed by nothing, or by a blank line, gives an empty header map |
| Server.LineWithoutColon | src/server.rs:69-73 | a non-empty line without a colon stops the parse with `MissingHeaderValue` of that line |
| Server.ReadFailureAfter | src/server.rs:54-61 | after any run of well-formed header lines, a read error fails the whole header section with `Io`, whatever follows it |
| Server.LineWithoutColonAfter | src/server.rs:54-77 | after any run of well-formed header lines, a non-empty line without a colon stops the parse with `MissingHeaderValue` of that line, whatever follows it |
| Server.WhitespaceLineIsNotTerminator | src/server.rs:65-73 | a line of one space does not end the headers; it fails with `MissingHeaderValue(" ")` |
| Server.HeaderLineRoundTrip | src/server.rs:69-76 | `k: v` with colon-free `k`, `v` and a trimmed `v` reads back as `(k, v)` |
| Server.HeaderLineSecondColon | src/server.rs:69-74 | in `k: v:x` the text after the second colon is dropped and the value is `v` (so "Host: a:80" gives "a") |
| Server.EmptyValue | src/server.rs:69-74 | `k:` with nothing after the colon gives the empty value, not an error |
| Server.HeadersLastWins | src/server.rs:54-77 | lines that all have a colon are accepted. The map's keys are exactly the starting keys plus the lines' names. Each name is bound to the value of its last line. Starting entries whose name does not occur are kept |
| Server.UnsupportedMethodFirst | src/server.rs:48-50 | an unknown first token is reported as an unsupported method carrying that token, however many tokens follow it (so "FOO" alone does not report a missing path) |
| Server.UnsupportedProtocolKind | src/server.rs:50 | with a good method, an unknown third token fails with `NotSupportedMethod` carrying that token |
| Server.ExtraTokensIgnored | src/server.rs:46-50 | a request line with more than three tokens parses exactly like its first three |
| HttpResponse.DisplayStatus | src/http_response.rs:70-77 | the rendering is a three-digit code that reads back as the status's RFC 9110 code (200 or 404), a space, then the reason phrase |
| HttpResponse.FromHtml | src/http_response.rs:23-37 | status, protocol and body are kept. The header map has exactly the keys Content-Type and Content-Length. Content-Type is text/html. Content-Length reads back as the body's UTF-8 byte count; it starts with a zero only for the empty body, and is then exactly "0" |
| HttpResponse.StatusHeadersAndData | src/http_response.rs:41-53 | the output starts with protocol, space, status and CRLF, and ends with CRLF CRLF followed by the unchanged body |
| HttpResponse.HeaderBlockEntries | src/http_response.rs:42-47 | for every iteration order, the header block has one line per map entry: each entry's `k: v` line is present, and line i belongs to the i-th key of the order |
| HttpResponse.EmptyHeaderMap | src/http_response.rs:41-52 | with no headers the output is the status line, three CRLFs and the body, so there is an extra blank line |
| HttpResponse.HelloExample | src/http_response.rs:23-29 | `from_html(Ok, Http11, "<p>hi</p>")` has the status line "HTTP/1.1 200 OK" and Content-Length "9" |
| Handler.Route | src/main.rs:44-47 | status is Ok exactly for (Get, "/"); the hello page goes with Ok and the not-found page with NotFound; total on all inputs |
| Handler.RouteExamples | src/main.rs:44-46 | path matching is exact: POST "/", GET "", "/index.html", "/missing" and "//" all go to the not-found page |
| Handler.HandleConnection | src/main.rs:33-61 | no response when parsing fails. After a successful parse there is no response exactly when the routed page cannot be read. A response echoes the request's protocol, is Ok exactly for GET "/", carries the routed page's contents, and has exactly the keys Content-Type (text/html) and Content-Length, whose decimal value is the UTF-8 byte count of that page, written without leading zeros (exactly "0" for an empty page) |
| Text.SplitWhitespaceJoin | src/server.rs:46 | `split_whitespace` gives back any non-empty, whitespace-free tokens joined by spaces |
| Text.SplitOnJoin | src/server.rs:69 | joining the pieces of `split(':')` with ':' restores the line |
| Text.JoinSplitOn | src/server.rs:69 | splitting colon-free pieces joined by ':' gives the pieces back |
| Text.TrimPadded | src/server.rs:74 | `trim` removes exactly the whitespace padding around a trimmed text |
| Decimal.NatToDecimal | src/http_response.rs:28 | the decimal rendering of a length is a non-empty digit string with no leading zero except for 0, and it reads back as the length |
| Decimal.DecimalCanonical | src/http_response.rs:28 | every digit string without a superfluous leading zero is the rendering of its own value |
| Utf8.Utf8Len | src/http_response.rs:24 | the UTF-8 length lies between the character count and four times it, and equals the character count exactly for ASCII |
| Lines.SplitLinesRoundTrip | src/server.rs:38 | lines sent each followed by CRLF come back out of the line reader unchanged |
| Wire.RequestRoundTrip | src/server.rs:36-85 | every request with a non-empty, whitespace-free path, colon-free header names and values, and trimmed values parses back from its encoding (request line, header lines in any order, blank line), whatever follows |
| Wire.HostExample | src/server.rs:36-85 | the bytes "GET / HTTP/1.1\r\nHost: x\r\n\r\n" parse to Get "/" HTTP/1.1 with headers {Host: x} |
| Wire.NoHeadersExample | src/server.rs:52-67 | the bytes "GET / HTTP/1.1\r\n\r\n" parse to a request with an empty header map |
| Wire.EmptyStreamExample | src/server.rs:39-43 | an empty byte stream fails with `EmptyRequest` |
| Wire.RenderAsLines | src/http_response.rs:42-52 | for a non-empty header map, the rendering is the status line and the header lines joined by CRLF, then CRLF CRLF, then the body |
| Wire.RenderedBody | src/http_response.rs:49-52 | when no header name or value contains CR or LF, a client that cuts the rendering at the first CRLF CRLF finds exactly the body, except that an empty header map leaves an extra CRLF in front of it (every `from_html` map meets the condition, see `Wire.FromHtmlHeadReadBack`) |
| Wire.FromHtmlFraming | src/http_response.rs:24-52 | for every header order, Content-Length read as a decimal equals the UTF-8 byte count of everything after the first CRLF CRLF |
| Wire.ResponseHeadReadBack | src/http_response.rs:41-52 | for a non-empty header map whose names and values hold no CR or LF, whose names and values hold no colon, and whose values have no surrounding whitespace, the rendered head, read back through the parser's line and header readers, gives the status line and then exactly that header map |
| Wire.FromHtmlHeadReadBack | src/http_response.rs:23-52 | every `from_html` header map meets the conditions of `Wire.ResponseHeadReadBack`, so the head of every `from_html` response reads back as its status line and exactly its two headers |
| Wire.HandleEncodedRequest | src/main.rs:33-56 | when both pages are readable, every expressible request gets a response that echoes its protocol and is Ok exactly for GET "/" |
| Wire.NoResponseOnParseFailure | src/main.rs:34-39 | an empty connection or a blank first line produces no response |

## Left out

- The `TcpListener` accept loop, the `ThreadPool` and the constants for address, port and thread count (src/main.rs:15-31) are networking and concurrency. The pool's source is not part of this model.
- Stream I/O is left out: `BufReader::lines` over the socket and `write_all` (src/server.rs:37-38, src/http_response.rs:55-61). The parser takes the sequence of line reads, and `write` is the pure rendering. A failed write produces no observable difference, since the handler only logs it.
- Read errors, including invalid UTF-8 (src/server.rs:45, src/server.rs:61), are one opaque `Io` error with no cause.
- `fs::read_to_string` (src/main.rs:49) is replaced by the `pages` map.
- Logging (`debug!`, `error!`) and the `anyhow`/`derive_more` error messages are left out. Errors are datatype constructors, not message strings.
- `HttpResponse<T>` is modelled only for `T = String`, the one instance the server builds. A generic body's `Display` is not modelled.
- The width of `usize` is not modelled: lengths are unbounded naturals.
- `HttpMethod` has no renderer in the source. `HttpRequest.MethodToken` is a model-only reference used to state the round trips.
- Line splitting is not proved against the standard library. `Lines.SplitLines` states, as an assumption, what `BufRead::lines` does.
- HttpResponse.HeaderBlockEntries: does not state that two orders give outputs of equal length; each order is characterised on its own.

=== FILE: decimal.dfy ===
/** Decimal rendering of lengths, as `usize::to_string` produces it, and its reading back. */
module Decimal {
  import opened Wrappers

  predicate IsDigit(c: char) {
    '0' <= c <= '9'
  }

  predicate AllDigits(s: string) {
    forall i :: 0 <= i < |s| ==> IsDigit(s[i])
  }

  function DigitValue(c: char): nat
    requires IsDigit(c)
  {
    c as int - '0' as int
  }

  function DigitChar(d: nat): (c: char)
    requires d < 10
    ensures IsDigit(c) && DigitValue(c) == d
  {
    ('0' as int + d) as char
  }

  /** Value of a digit string read most significant digit first. */
  function DecimalValue(s: string): nat
    requires AllDigits(s)
  {
    if |s| == 0 then 0 else 10 * DecimalValue(s[..|s| - 1]) + DigitValue(s[|s| - 1])
  }

  /** Reads a non-empty string of ASCII digits as a number; anything else is rejected. */
  function ParseDecimal(s: string): (r: Option<nat>)
    ensures r.Some? <==> |s| > 0 && AllDigits(s)
  {
    if |s| > 0 && AllDigits(s) then Some(DecimalValue(s)) else None
  }

  /** `to_string` on an unsigned integer: the shortest decimal rendering of `n`,
      which reads back as `n`. */
  function NatToDecimal(n: nat): (s: string)
    ensures |s| >= 1 && AllDigits(s)
    ensures s[0] == '0' <==> n == 0
    ensures ParseDecimal(s) == Some(n)
    decreases n
  {
    if n < 10 then
      var s := [DigitChar(n)];
      assert s[..|s| - 1] == [];
      assert DecimalValue(s) == 10 * DecimalValue([]) + DigitValue(s[0]) == n;
      s
    else
      var p := NatToDecimal(n / 10);
      var s := p + [DigitChar(n % 10)];
      assert s[..|s| - 1] == p;
      s
  }

  /** The value of a three-digit string, digit by digit. */
  lemma ThreeDigits(s: string)
    requires |s| == 3 && AllDigits(s)
    ensures ParseDecimal(s) == Some(100 * DigitValue(s[0]) + 10 * DigitValue(s[1]) + DigitValue(s[2]))
  {
    var a, b := s[..1], s[..2];
    assert b[..1] == a && b[1] == s[1] && a[..0] == [] && a[0] == s[0];
    assert DecimalValue(a) == DigitValue(s[0]);
    assert DecimalValue(b) == 10 * DigitValue(s[0]) + DigitValue(s[1]);
    assert s[..2] == b;
  }

  lemma {:induction false} DecimalPositive(s: string)
    requires |s| > 0 && AllDigits(s) && s[0] != '0'
    ensures DecimalValue(s) > 0
    decreases |s|
  {
    if |s| > 1 {
      DecimalPositive(s[..|s| - 1]);
    }
  }

  /** Every digit string without a superfluous leading zero is the rendering of its value. */
  lemma {:induction false} DecimalCanonical(s: string)
    requires |s| > 0 && AllDigits(s)
    requires s[0] == '0' ==> |s| == 1
    ensures NatToDecimal(DecimalValue(s)) == s
    decreases |s|
  {
    var p := s[..|s| - 1];
    var d := DigitValue(s[|s| - 1]);
    if |p| == 0 {
      assert s == [s[0]];
    } else {
      DecimalPositive(p);
      DecimalCanonical(p);
      var n := DecimalValue(s);
      assert n / 10 == DecimalValue(p) && n % 10 == d;
      assert s == p + [s[|s| - 1]];
    }
  }
}

=== FILE: framing.dfy ===
/** How a client finds the end of a response head: at the first CRLF CRLF, after
    which come the bytes that Content-Length counts. */
module Framing {
  import opened Wrappers
  import opened Text

  /** Text that holds no line break. */
  predicate SingleLine(s: string) {
    '\r' !in s && '\n' !in s
  }

  predicate SeparatorAt(s: string, p: nat) {
    p + 4 <= |s| && s[p..p + 4] == "\r\n\r\n"
  }

  /** A separator at `p` in `s` is one at `p - d` in the suffix after `d`. */
  lemma SeparatorShift(s: string, d: nat, p: nat)
    requires d <= p && d <= |s|
    ensures SeparatorAt(s, p) <==> SeparatorAt(s[d..], p - d)
  {
    if p + 4 <= |s| {
      assert s[p..p + 4] == s[d..][p - d..p - d + 4];
    }
  }

  /** Offset of the first CRLF CRLF in `s`, if any. */
  function FindBlankLine(s: string): (r: Option<nat>)
    ensures r.Some? ==> SeparatorAt(s, r.value)
    ensures r.Some? ==> forall p: nat :: p < r.value ==> !SeparatorAt(s, p)
    ensures r.None? ==> forall p: nat :: !SeparatorAt(s, p)
    decreases |s|
  {
    if |s| < 4 then None
    else
      assert forall p: nat :: 1 <= p ==> (SeparatorAt(s, p) <==> SeparatorAt(s[1..], p - 1)) by {
        forall p: nat | 1 <= p ensures SeparatorAt(s, p) <==> SeparatorAt(s[1..], p - 1) {
          SeparatorShift(s, 1, p);
        }
      }
      if s[..4] == "\r\n\r\n" then Some(0)
      else match FindBlankLine(s[1..])
        case None => None
        case Some(i) => Some(i + 1)
  }

  /** The body a client reads: everything after the first blank line. */
  function BodyAfterHead(s: string): (body: Option<string>)
    ensures body.Some? <==> FindBlankLine(s).Some?
    ensures body.Some? ==> s == s[..FindBlankLine(s).value] + "\r\n\r\n" + body.value
  {
    match FindBlankLine(s)
    case None => None
    case Some(p) =>
      assert s == s[..p] + s[p..p + 4] + s[p + 4..];
      Some(s[p + 4..])
  }

  lemma FirstSeparatorIs(s: string, k: nat)
    requires SeparatorAt(s, k)
    requires forall p: nat :: p < k ==> !SeparatorAt(s, p)
    ensures FindBlankLine(s) == Some(k)
  {
  }

  lemma NoSeparatorIs(s: string)
    requires forall p: nat :: !SeparatorAt(s, p)
    ensures FindBlankLine(s) == None
  {
  }

  function Shift(r: Option<nat>, d: nat): Option<nat>
  {
    match r
    case None => None
    case Some(i) => Some(i + d)
  }

  lemma NoSeparatorNearLine(x: string, y: string, p: nat)
    requires SingleLine(x)
    requires |y| == 0 || y[0] != '\r'
    requires p < |x| + 2
    ensures !SeparatorAt(x + "\r\n" + y, p)
  {
    var s := x + "\r\n" + y;
    if p + 4 <= |s| {
      if p + 1 < |x| {
        assert s[p + 1] == x[p + 1];
      } else if p + 1 == |x| {
        assert s[p + 1] == '\r';
      } else if p == |x| {
        assert s[p + 2] == y[0];
      } else {
        assert s[p] == '\n';
      }
    }
  }

  /** No separator of `x + CRLF + y` starts within the first `d` positions, and
      later ones are those of `y`. */
  lemma SeparatorsAfterLine(x: string, y: string, s: string, p: nat)
    requires SingleLine(x)
    requires |y| == 0 || y[0] != '\r'
    requires s == x + "\r\n" + y
    ensures p < |x| + 2 ==> !SeparatorAt(s, p)
    ensures p >= |x| + 2 ==> (SeparatorAt(s, p) <==> SeparatorAt(y, p - |x| - 2))
  {
    if p < |x| + 2 {
      NoSeparatorNearLine(x, y, p);
    } else {
      assert s[|x| + 2..] == y;
      SeparatorShift(s, |x| + 2, p);
    }
  }

  /** A line break can neither start a separator inside a single line nor right
      after it, unless the next line is empty. */
  lemma SkipLine(x: string, y: string, s: string)
    requires SingleLine(x)
    requires |y| == 0 || y[0] != '\r'
    requires s == x + "\r\n" + y
    ensures FindBlankLine(s) == Shift(FindBlankLine(y), |x| + 2)
  {
    var d := |x| + 2;
    var r := FindBlankLine(y);
    if r.None? {
      forall p: nat ensures !SeparatorAt(s, p) {
        SeparatorsAfterLine(x, y, s, p);
      }
      NoSeparatorIs(s);
    } else {
      var j := r.value;
      SeparatorsAfterLine(x, y, s, j + d);
      forall p: nat | p < j + d ensures !SeparatorAt(s, p) {
        SeparatorsAfterLine(x, y, s, p);
      }
      FirstSeparatorIs(s, j + d);
    }
  }

  /** After the last line of a head, the blank line is the first separator. */
  lemma LastLine(x: string, body: string)
    requires SingleLine(x)
    ensures FindBlankLine(x + "\r\n\r\n" + body) == Some(|x|)
  {
    var s := x + "\r\n\r\n" + body;
    assert s[|x|..|x| + 4] == "\r\n\r\n";
    assert SeparatorAt(s, |x|);
    forall p: nat | p < |x| ensures !SeparatorAt(s, p) {
      assert s[p + 1] == if p + 1 < |x| then x[p + 1] else '\r';
    }
    FirstSeparatorIs(s, |x|);
  }

  lemma JoinPrefix(parts: seq<string>, sep: string)
    requires |parts| > 0
    ensures parts[0] <= Join(parts, sep)
  {
  }

  /** Non-empty single lines joined by CRLF and followed by CRLF CRLF: the head
      ends right after the last line. */
  lemma {:induction false} BlankLineAfterLines(lines: seq<string>, body: string)
    requires |lines| > 0
    requires forall i :: 0 <= i < |lines| ==> |lines[i]| > 0 && SingleLine(lines[i])
    ensures FindBlankLine(Join(lines, "\r\n") + "\r\n\r\n" + body) == Some(|Join(lines, "\r\n")|)
    decreases |lines|
  {
    if |lines| == 1 {
      LastLine(lines[0], body);
    } else {
      var rest := Join(lines[1..], "\r\n");
      BlankLineAfterLines(lines[1..], body);
      JoinPrefix(lines[1..], "\r\n");
      assert lines[1..][0] == lines[1];
      var y := rest + "\r\n\r\n" + body;
      assert y[0] == lines[1][0];
      var s := Join(lines, "\r\n") + "\r\n\r\n" + body;
      assert lines == [lines[0]] + lines[1..];
      JoinCons(lines[0], lines[1..], "\r\n");
      assert s == lines[0] + "\r\n" + y;
      SkipLine(lines[0], y, s);
      assert |Join(lines, "\r\n")| == |lines[0]| + 2 + |rest|;
    }
  }
}

=== FILE: handler.dfy ===
/** The decision logic of `handle_connection` (src/main.rs): parse, route, read the
    page, build the response. The socket, the file system and the log stay outside:
    page contents are an input, and writing is the rendering of HttpResponse. */
module Handler {
  import opened Wrappers
  import opened HttpRequest
  import opened HttpResponse
  import opened Server
  import opened Decimal
  import opened Utf8

  const HelloPage: string := "web_pages/hello.html"
  const NotFoundPage: string := "web_pages/404.html"

  /** The fixed route table: exact match on GET "/", everything else is not found. */
  function Route(m: HttpMethod, path: string): (r: (string, HttpStatus))
    ensures r.1 == Ok <==> m == Get && path == "/"
    ensures r.0 == HelloPage <==> r.1 == Ok
    ensures r.0 == NotFoundPage <==> r.1 == NotFound
  {
    if m == Get && path == "/" then (HelloPage, Ok) else (NotFoundPage, NotFound)
  }

  /** The response `handle_connection` writes for the connection's lines, given the
      readable pages (a path absent from `pages` is a failed read); None when it
      writes nothing. */
  function HandleConnection(lines: seq<LineRead>, pages: map<string, string>): (r: Option<Response>)
    ensures ParseRequest(lines).Failure? ==> r.None?
    ensures ParseRequest(lines).Success? ==>
      var req := ParseRequest(lines).value;
      var page := Route(req.httpMethod, req.path).0;
      && (r.None? <==> page !in pages)
      && (r.Some? ==>
            && r.value.protocol == req.protocol
            && (r.value.status == Ok <==> req.httpMethod == Get && req.path == "/")
            && r.value.data == pages[page]
            && r.value.headers.Keys == {"Content-Type", "Content-Length"}
            && r.value.headers["Content-Type"] == "text/html"
            && ParseDecimal(r.value.headers["Content-Length"]) == Some(Utf8Len(r.value.data))
            && (r.value.headers["Content-Length"][0] == '0' ==> r.value.headers["Content-Length"] == "0"))
  {
    match ParseRequest(lines)
    case Failure(_) => None
    case Success(request) =>
      var route := Route(request.httpMethod, request.path);
      if route.0 !in pages then None
      else Some(FromHtml(route.1, request.protocol, pages[route.0]))
  }

  /** Path matching is exact and POST never reaches the hello page. */
  lemma RouteExamples()
    ensures Route(Get, "/") == (HelloPage, Ok)
    ensures Route(Post, "/") == (NotFoundPage, NotFound)
    ensures Route(Get, "") == (NotFoundPage, NotFound)
    ensures Route(Get, "/index.html") == (NotFoundPage, NotFound)
    ensures Route(Get, "/missing") == (NotFoundPage, NotFound)
    ensures Route(Get, "//") == (NotFoundPage, NotFound)
  {
  }
}

=== FILE: http_request.dfy ===
/** The request vocabulary: methods, protocol versions and the parsed request record
    (src/http_request.rs). */
module HttpRequest {
  import opened Wrappers

  datatype HttpMethod = Get | Post

  datatype HttpProtocol = Http11 | Http2

  /** The one error kind both token conversions raise, carrying the rejected token.
      A bad protocol token is reported with this same kind. */
  datatype NotSupportedMethod = NotSupportedMethod(token: string)

  /** A parsed request (`method` is a Dafny keyword, hence `httpMethod`). Header names
      are case-sensitive and unique. */
  datatype Request = Request(
    httpMethod: HttpMethod,
    path: string,
    protocol: HttpProtocol,
    headers: map<string, string>)

  /** Wire token of a method. The source has no renderer for methods; this one is
      the reference the conversion below is checked against. */
  function MethodToken(m: HttpMethod): string
  {
    match m
    case Get => "GET"
    case Post => "POST"
  }

  /** `HttpMethod::try_from`: exact, case-sensitive match of the two method tokens. */
  function MethodFromToken(value: string): (r: Result<HttpMethod, NotSupportedMethod>)
    ensures r.Success? <==> value == "GET" || value == "POST"
    ensures r.Success? ==> MethodToken(r.value) == value
    ensures r.Failure? ==> r.error == NotSupportedMethod(value)
  {
    if value == "GET" then Success(Get)
    else if value == "POST" then Success(Post)
    else Failure(NotSupportedMethod(value))
  }

  /** `Display for HttpProtocol`. */
  function DisplayProtocol(p: HttpProtocol): string
  {
    match p
    case Http11 => "HTTP/1.1"
    case Http2 => "HTTP/2"
  }

  /** `HttpProtocol::try_from`: exact match of the two version tokens; any other token
      is rejected with the method error kind. */
  function ProtocolFromToken(value: string): (r: Result<HttpProtocol, NotSupportedMethod>)
    ensures r.Success? <==> value == "HTTP/1.1" || value == "HTTP/2"
    ensures r.Success? ==> DisplayProtocol(r.value) == value
    ensures r.Failure? ==> r.error == NotSupportedMethod(value)
  {
    if value == "HTTP/1.1" then Success(Http11)
    else if value == "HTTP/2" then Success(Http2)
    else Failure(NotSupportedMethod(value))
  }

  /** Every method's token converts back to that method. */
  lemma MethodRoundTrip(m: HttpMethod)
    ensures MethodFromToken(MethodToken(m)) == Success(m)
  {
  }

  /** Every rendered protocol converts back to that protocol. */
  lemma ProtocolRoundTrip(p: HttpProtocol)
    ensures ProtocolFromToken(DisplayProtocol(p)) == Success(p)
  {
  }

  /** The renderer is injective: distinct protocols render to distinct tokens. */
  lemma DisplayProtocolInjective(p: HttpProtocol, q: HttpProtocol)
    ensures DisplayProtocol(p) == DisplayProtocol(q) ==> p == q
  {
    ProtocolRoundTrip(p);
    ProtocolRoundTrip(q);
  }

  /** Matching is case-sensitive: lower-case tokens are rejected, token preserved. */
  lemma CaseSensitive()
    ensures MethodFromToken("get") == Failure(NotSupportedMethod("get"))
    ensures ProtocolFromToken("http/1.1") == Failure(NotSupportedMethod("http/1.1"))
  {
  }
}

=== FILE: http_response.dfy ===
/** Responses and their wire text (src/http_response.rs). */
module HttpResponse {
  import opened Wrappers
  import opened Text
  import opened Decimal
  import opened Utf8
  import opened HttpRequest

  datatype HttpStatus = Ok | NotFound

  /** Numeric status code of section 15 of RFC 9110; the reference the rendering
      below is checked against. */
  function StatusCode(s: HttpStatus): nat
  {
    match s
    case Ok => 200
    case NotFound => 404
  }

  /** Reason phrase RFC 9110 (section 15) recommends for the code. */
  function ReasonPhrase(s: HttpStatus): string
  {
    match s
    case Ok => "OK"
    case NotFound => "Not Found"
  }

  /** `Display for HttpStatus`: the three-digit code, a space, the reason phrase. */
  function DisplayStatus(s: HttpStatus): (text: string)
    ensures |text| > 4 && text[3] == ' '
    ensures ParseDecimal(text[..3]) == Some(StatusCode(s))
    ensures text[4..] == ReasonPhrase(s)
  {
    match s
    case Ok =>
      ThreeDigits("200");
      StatusText("200", "OK", "200 OK");
      "200 OK"
    case NotFound =>
      ThreeDigits("404");
      StatusText("404", "Not Found", "404 Not Found");
      "404 Not Found"
  }

  lemma StatusText(code: string, phrase: string, text: string)
    requires |code| == 3 && |phrase| > 0 && text == code + " " + phrase
    ensures |text| > 4 && text[3] == ' ' && text[..3] == code && text[4..] == phrase
  {
  }

  /** A response whose body is already rendered as text. */
  datatype Response = Response(
    status: HttpStatus,
    protocol: HttpProtocol,
    headers: map<string, string>,
    data: string)

  /** `HttpResponse::from_html`: keeps status, protocol and body, and derives the two
      framing headers, the second being the body's UTF-8 byte count in decimal. */
  function FromHtml(status: HttpStatus, protocol: HttpProtocol, data: string): (r: Response)
    ensures r.status == status && r.protocol == protocol && r.data == data
    ensures r.headers.Keys == {"Content-Type", "Content-Length"}
    ensures r.headers["Content-Type"] == "text/html"
    ensures ParseDecimal(r.headers["Content-Length"]) == Some(Utf8Len(data))
    ensures r.headers["Content-Length"][0] == '0' ==> data == "" && r.headers["Content-Length"] == "0"
  {
    var headers := map[
      "Content-Type" := "text/html",
      "Content-Length" := NatToDecimal(Utf8Len(data))];
    Response(status, protocol, headers, data)
  }

  // ---------------------------------------------------------------------------
  // Rendering

  /** `order` lists every key of `keys` exactly once: one possible iteration order
      of the header map. */
  predicate IsOrdering(order: seq<string>, keys: set<string>) {
    && (forall i, j :: 0 <= i < j < |order| ==> order[i] != order[j])
    && (forall i :: 0 <= i < |order| ==> order[i] in keys)
    && (forall k :: k in keys ==> k in order)
  }

  function HeaderLine(name: string, value: string): string
  {
    name + ": " + value
  }

  /** The `name: value` lines of `m`, in the given order. */
  function HeaderLines(m: map<string, string>, order: seq<string>): seq<string>
    requires forall i :: 0 <= i < |order| ==> order[i] in m
  {
    if |order| == 0 then []
    else [HeaderLine(order[0], m[order[0]])] + HeaderLines(m, order[1..])
  }

  function StatusLine(r: Response): string
  {
    DisplayProtocol(r.protocol) + " " + DisplayStatus(r.status)
  }

  /** `status_headers_and_data` for the header iteration order `order`: the status
      line, the header lines joined by CRLF, CRLF CRLF, then the body unchanged. */
  function StatusHeadersAndData(r: Response, order: seq<string>): (out: string)
    requires IsOrdering(order, r.headers.Keys)
    ensures DisplayProtocol(r.protocol) + " " + DisplayStatus(r.status) + "\r\n" <= out
    ensures |out| >= 4 + |r.data| && out[|out| - |r.data| - 4..] == "\r\n\r\n" + r.data
  {
    var block := Join(HeaderLines(r.headers, order), "\r\n");
    var out := StatusLine(r) + "\r\n" + block + "\r\n\r\n" + r.data;
    assert out == (StatusLine(r) + "\r\n") + (block + "\r\n\r\n" + r.data);
    assert out == (StatusLine(r) + "\r\n" + block) + ("\r\n\r\n" + r.data);
    out
  }

  /** A duplicate-free sequence has as many distinct elements as positions. */
  lemma {:induction false} DistinctCount(order: seq<string>)
    requires forall i, j :: 0 <= i < j < |order| ==> order[i] != order[j]
    ensures |set k | k in order| == |order|
    decreases |order|
  {
    if |order| > 0 {
      var tail := order[1..];
      DistinctCount(tail);
      assert (set k | k in order) == {order[0]} + (set k | k in tail);
      assert order[0] !in (set k | k in tail);
    }
  }

  lemma {:induction false} HeaderLinesAt(m: map<string, string>, order: seq<string>)
    requires forall i :: 0 <= i < |order| ==> order[i] in m
    ensures |HeaderLines(m, order)| == |order|
    ensures forall i :: 0 <= i < |order| ==> HeaderLines(m, order)[i] == HeaderLine(order[i], m[order[i]])
    decreases |order|
  {
    if |order| > 0 {
      HeaderLinesAt(m, order[1..]);
    }
  }

  /** The header block holds one line per map entry: as many lines as entries,
      every entry's `name: value` line among them, and no other line. */
  lemma HeaderBlockEntries(m: map<string, string>, order: seq<string>)
    requires IsOrdering(order, m.Keys)
    ensures |HeaderLines(m, order)| == |m| == |order|
    ensures forall k :: k in m ==> HeaderLine(k, m[k]) in HeaderLines(m, order)
    ensures forall i :: 0 <= i < |order| ==>
      order[i] in m && HeaderLines(m, order)[i] == HeaderLine(order[i], m[order[i]])
  {
    HeaderLinesAt(m, order);
    DistinctCount(order);
    assert (set k | k in order) == m.Keys;
    forall k | k in m ensures HeaderLine(k, m[k]) in HeaderLines(m, order) {
      var i :| 0 <= i < |order| && order[i] == k;
      assert HeaderLines(m, order)[i] == HeaderLine(k, m[k]);
    }
  }

  /** With no headers the header block is empty, which leaves an extra blank line
      before the body. */
  lemma EmptyHeaderMap(r: Response)
    requires r.headers == map[]
    ensures StatusHeadersAndData(r, []) == StatusLine(r) + "\r\n\r\n\r\n" + r.data
  {
  }

  lemma HelloLength(body: string)
    requires body == "<p>hi</p>"
    ensures Utf8Len(body) == 9
  {
    assert IsAscii(body) by {
      forall i | 0 <= i < |body| ensures body[i] as int < 0x80 {
        assert body[i] in "<p>hi/";
      }
    }
  }

  /** The page "<p>hi</p>" is framed by a length of 9, under the first line
      "HTTP/1.1 200 OK". */
  lemma HelloExample(body: string)
    requires body == "<p>hi</p>"
    ensures StatusLine(FromHtml(Ok, Http11, body)) == "HTTP/1.1 200 OK"
    ensures FromHtml(Ok, Http11, body).headers["Content-Length"] == "9"
  {
    HelloLength(body);
    assert NatToDecimal(9) == "9";
  }
}

=== FILE: lines.dfy ===
/** How `BufRead::lines` cuts a byte stream into lines, taken as an assumption
    about the standard library: split after each LF, drop the LF and one CR
    right before it, and yield no empty line after a final LF. */
module Lines {
  import opened Text

  /** Drops one trailing CR. */
  function StripCr(line: string): string
  {
    if |line| > 0 && line[|line| - 1] == '\r' then line[..|line| - 1] else line
  }

  function SplitLines(s: string): (lines: seq<string>)
    ensures forall i :: 0 <= i < |lines| ==> '\n' !in lines[i]
    ensures |lines| == 0 <==> |s| == 0
    decreases |s|
  {
    if |s| == 0 then []
    else if '\n' !in s then [s]
    else
      var i := FirstIndex(s, '\n');
      var line := StripCr(s[..i]);
      assert forall x :: x in line ==> x in s[..i];
      [line] + SplitLines(s[i + 1..])
  }

  /** Each line followed by CRLF, as a client puts lines on the wire. */
  function CrlfTerminated(lines: seq<string>): string
  {
    if |lines| == 0 then "" else lines[0] + "\r\n" + CrlfTerminated(lines[1..])
  }

  /** A CRLF-terminated line is read back without its terminator. */
  lemma SplitLinesCrlf(line: string, rest: string)
    requires '\n' !in line
    ensures SplitLines(line + "\r\n" + rest) == [line] + SplitLines(rest)
  {
    var s := line + "\r\n" + rest;
    assert s[..|line| + 1] == line + "\r";
    assert forall x :: x in line + "\r" ==> x == '\r' || x in line;
    FirstIndexOf(s, '\n', |line| + 1);
    assert s[..|line| + 1][..|line|] == line;
    assert s[|line| + 2..] == rest;
  }

  lemma {:induction false} SplitLinesAppend(lines: seq<string>, rest: string)
    requires forall i :: 0 <= i < |lines| ==> '\n' !in lines[i]
    ensures SplitLines(CrlfTerminated(lines) + rest) == lines + SplitLines(rest)
    decreases |lines|
  {
    if |lines| == 0 {
      assert CrlfTerminated(lines) + rest == rest;
    } else {
      var tail := CrlfTerminated(lines[1..]);
      calc {
        SplitLines(CrlfTerminated(lines) + rest);
        { assert CrlfTerminated(lines) + rest == lines[0] + "\r\n" + (tail + rest); }
        SplitLines(lines[0] + "\r\n" + (tail + rest));
        { SplitLinesCrlf(lines[0], tail + rest); }
        [lines[0]] + SplitLines(tail + rest);
        { SplitLinesAppend(lines[1..], rest); }
        [lines[0]] + (lines[1..] + SplitLines(rest));
        { assert lines == [lines[0]] + lines[1..]; }
        lines + SplitLines(rest);
      }
    }
  }

  /** CRLF-terminated lines that contain no LF split back into the same lines. */
  lemma SplitLinesRoundTrip(lines: seq<string>)
    requires forall i :: 0 <= i < |lines| ==> '\n' !in lines[i]
    ensures SplitLines(CrlfTerminated(lines)) == lines
  {
    SplitLinesAppend(lines, "");
    assert CrlfTerminated(lines) + "" == CrlfTerminated(lines);
  }

  /** Lines joined by CRLF and followed by one more CRLF are CRLF-terminated lines. */
  lemma {:induction false} JoinCrlf(lines: seq<string>)
    requires |lines| > 0
    ensures Join(lines, "\r\n") + "\r\n" == CrlfTerminated(lines)
    decreases |lines|
  {
    if |lines| > 1 {
      JoinCrlf(lines[1..]);
    }
  }

  /** A head joined by CRLF and closed by a blank line is the head's lines and an
      empty line, each CRLF-terminated. */
  lemma JoinedHeadCrlf(head: seq<string>, data: string)
    requires |head| > 0
    ensures Join(head, "\r\n") + "\r\n\r\n" + data == CrlfTerminated(head + [""]) + data
  {
    var j := Join(head, "\r\n");
    JoinCrlf(head);
    CrlfTerminatedAppend(head, [""]);
    BlankLineCrlf();
    DoubleCrlf(j);
  }

  lemma BlankLineCrlf()
    ensures CrlfTerminated([""]) == "\r\n"
  {
    assert [""][1..] == [];
  }

  lemma DoubleCrlf(j: string)
    ensures j + "\r\n\r\n" == (j + "\r\n") + "\r\n"
  {
  }

  lemma {:induction false} CrlfTerminatedAppend(a: seq<string>, b: seq<string>)
    ensures CrlfTerminated(a + b) == CrlfTerminated(a) + CrlfTerminated(b)
    decreases |a|
  {
    if |a| == 0 {
      assert a + b == b;
    } else {
      assert (a + b)[1..] == a[1..] + b;
      CrlfTerminatedAppend(a[1..], b);
    }
  }

  lemma CrlfTerminated2(a: string, b: string)
    ensures CrlfTerminated([a, b]) == a + "\r\n" + b + "\r\n"
  {
    assert [a, b][1..] == [b];
    assert [b][1..] == [];
    assert CrlfTerminated([b]) == b + "\r\n" + CrlfTerminated([]);
  }

  lemma CrlfTerminated3(a: string, b: string, c: string)
    ensures CrlfTerminated([a, b, c]) == a + "\r\n" + b + "\r\n" + c + "\r\n"
  {
    assert [a, b, c][1..] == [b, c];
    CrlfTerminated2(b, c);
  }
}

=== FILE: server.dfy ===
/** The request parser, `parse_request` in src/server.rs, over the lines the
    connection yields. */
module Server {
  import opened Wrappers
  import opened Text
  import opened HttpRequest

  /** One item yielded by `BufRead::lines`: a decoded line, or a read failure
      (an I/O error, or bytes that are not UTF-8). */
  datatype LineRead = Line(text: string) | ReadFailure

  /** The error kinds `parse_request` can return. */
  datatype ParseError =
    | EmptyRequest
    | MissingHttpMethod
    | MissingPath
    | MissingHttpProtocol
    | MissingHeaderName
    | MissingHeaderValue(name: string)
    | Unsupported(cause: NotSupportedMethod)
    | Io

  /** Lines that were all read successfully. */
  function AsRead(texts: seq<string>): (lines: seq<LineRead>)
    ensures |lines| == |texts|
    ensures forall i :: 0 <= i < |texts| ==> lines[i] == Line(texts[i])
  {
    seq(|texts|, i requires 0 <= i < |texts| => Line(texts[i]))
  }

  // ---------------------------------------------------------------------------
  // Request line

  /** Tokenises the request line on whitespace runs and converts tokens 1 and 3;
      token 2 is the path, verbatim, and later tokens are ignored. The checks run
      in a fixed order: method present, method supported, path present, protocol
      present, protocol supported. */
  function ParseRequestLine(line: string): (r: Result<(HttpMethod, string, HttpProtocol), ParseError>)
    ensures r == Failure(MissingHttpMethod) <==> AllWhitespace(line)
    ensures var t := SplitWhitespace(line);
      && (|t| >= 1 && MethodFromToken(t[0]).Failure? ==>
            r == Failure(Unsupported(NotSupportedMethod(t[0]))))
      && (|t| == 1 && MethodFromToken(t[0]).Success? ==> r == Failure(MissingPath))
      && (|t| == 2 && MethodFromToken(t[0]).Success? ==> r == Failure(MissingHttpProtocol))
      && (|t| >= 3 && MethodFromToken(t[0]).Success? && ProtocolFromToken(t[2]).Failure? ==>
            r == Failure(Unsupported(NotSupportedMethod(t[2]))))
    ensures r.Success? <==>
      var t := SplitWhitespace(line);
      |t| >= 3 && t[0] in {"GET", "POST"} && t[2] in {"HTTP/1.1", "HTTP/2"}
    ensures r.Success? ==>
      var t := SplitWhitespace(line);
      && MethodToken(r.value.0) == t[0]
      && r.value.1 == t[1]
      && DisplayProtocol(r.value.2) == t[2]
  {
    var parts := SplitWhitespace(line);
    SplitWhitespaceEmpty(line);
    if |parts| == 0 then Failure(MissingHttpMethod)
    else match MethodFromToken(parts[0])
      case Failure(e) => Failure(Unsupported(e))
      case Success(m) =>
        if |parts| == 1 then Failure(MissingPath)
        else if |parts| == 2 then Failure(MissingHttpProtocol)
        else match ProtocolFromToken(parts[2])
          case Failure(e) => Failure(Unsupported(e))
          case Success(protocol) => Success((m, parts[1], protocol))
  }

  // ---------------------------------------------------------------------------
  // Header lines

  /** Name of a header line: the untrimmed text before its first colon. */
  function HeaderName(line: string): string
  {
    Field(line, ':')
  }

  /** Value of a header line: the trimmed text between its first and second colon. */
  function HeaderValue(line: string): string
    requires ':' in line
  {
    Trim(Field(line[|HeaderName(line)| + 1..], ':'))
  }

  /** Splits one header line on ':'. With no colon the line is rejected as a missing
      value naming the whole line; a missing name cannot happen, since the split
      always has a first piece. */
  function ParseHeaderLine(line: string): (r: Result<(string, string), ParseError>)
    ensures r.Failure? <==> ':' !in line
    ensures r.Failure? ==> r.error == MissingHeaderValue(line)
    ensures r.Success? ==> r.value == (HeaderName(line), HeaderValue(line))
  {
    var comps := SplitOn(line, ':');
    var key := comps[0];
    if |comps| < 2 then Failure(MissingHeaderValue(key))
    else Success((key, Trim(comps[1])))
  }

  /** The header loop: reads lines until an empty one or the end of input,
      inserting each header into `headers` (a later duplicate overwrites). */
  function ParseHeaders(lines: seq<LineRead>, headers: map<string, string>): (r: Result<map<string, string>, ParseError>)
    ensures r.Failure? ==> r.error == Io || r.error.MissingHeaderValue?
    ensures r.Success? ==> headers.Keys <= r.value.Keys
    ensures |lines| > 0 && lines[0] == ReadFailure ==> r == Failure(Io)
    decreases |lines|
  {
    if |lines| == 0 then Success(headers)
    else match lines[0]
      case ReadFailure => Failure(Io)
      case Line(text) =>
        if |text| == 0 then Success(headers)
        else match ParseHeaderLine(text)
          case Failure(e) => Failure(e)
          case Success(kv) => ParseHeaders(lines[1..], headers[kv.0 := kv.1])
  }

  // ---------------------------------------------------------------------------
  // Whole request

  /** `parse_request`: the request line, then the header section. */
  function ParseRequest(lines: seq<LineRead>): (r: Result<Request, ParseError>)
    ensures r == Failure(EmptyRequest) <==> |lines| == 0
    ensures r == Failure(MissingHttpMethod) <==>
      |lines| > 0 && lines[0].Line? && AllWhitespace(lines[0].text)
    ensures r.Failure? ==> r.error != MissingHeaderName
    ensures |lines| > 0 && lines[0] == ReadFailure ==> r == Failure(Io)
    ensures |lines| > 0 && lines[0].Line? && ParseRequestLine(lines[0].text).Failure? ==>
      r == Failure(ParseRequestLine(lines[0].text).error)
    ensures |lines| > 0 && lines[0].Line? && ParseRequestLine(lines[0].text).Success? ==>
      && (r.Success? <==> ParseHeaders(lines[1..], map[]).Success?)
      && (r.Failure? ==> r == Failure(ParseHeaders(lines[1..], map[]).error))
    ensures r.Success? ==>
      && |lines| > 0 && lines[0].Line?
      && ParseRequestLine(lines[0].text) == Success((r.value.httpMethod, r.value.path, r.value.protocol))
      && ParseHeaders(lines[1..], map[]) == Success(r.value.headers)
  {
    if |lines| == 0 then Failure(EmptyRequest)
    else match lines[0]
      case ReadFailure => Failure(Io)
      case Line(requestLine) =>
        match ParseRequestLine(requestLine)
        case Failure(e) => Failure(e)
        case Success(parts) =>
          match ParseHeaders(lines[1..], map[])
          case Failure(e) => Failure(e)
          case Success(headers) => Success(Request(parts.0, parts.1, parts.2, headers))
  }

  // ---------------------------------------------------------------------------
  // Properties of the header section

  /** Scanning stops at the first empty line: nothing after it is inspected. */
  lemma {:induction false} HeadersStopAtBlankLine(pre: seq<LineRead>, rest: seq<LineRead>, headers: map<string, string>)
    requires forall i :: 0 <= i < |pre| ==> pre[i] != Line("")
    ensures ParseHeaders(pre + [Line("")] + rest, headers) == ParseHeaders(pre, headers)
    decreases |pre|
  {
    var lines := pre + [Line("")] + rest;
    if |pre| == 0 {
      assert lines[0] == Line("");
    } else {
      assert lines[0] == pre[0];
      assert lines[1..] == pre[1..] + [Line("")] + rest;
      match pre[0]
      case ReadFailure =>
      case Line(text) =>
        if |text| > 0 {
          match ParseHeaderLine(text)
          case Failure(_) =>
          case Success(kv) => HeadersStopAtBlankLine(pre[1..], rest, headers[kv.0 := kv.1]);
        }
    }
  }

  /** The whole request ignores everything after the blank line ending its headers. */
  lemma RequestStopsAtBlankLine(first: LineRead, pre: seq<LineRead>, rest: seq<LineRead>)
    requires forall i :: 0 <= i < |pre| ==> pre[i] != Line("")
    ensures ParseRequest([first] + pre + [Line("")] + rest) == ParseRequest([first] + pre)
  {
    assert ([first] + pre + [Line("")] + rest)[1..] == pre + [Line("")] + rest;
    assert ([first] + pre)[1..] == pre;
    HeadersStopAtBlankLine(pre, rest, map[]);
  }

  /** A request line alone, or followed by a blank line, gives an empty header map. */
  lemma NoHeaderSection(line: string, rest: seq<LineRead>)
    requires ParseRequestLine(line).Success?
    ensures ParseRequest([Line(line)]).Success?
    ensures ParseRequest([Line(line)]).value.headers == map[]
    ensures ParseRequest([Line(line), Line("")] + rest) == ParseRequest([Line(line)])
  {
    RequestStopsAtBlankLine(Line(line), [], rest);
    assert [Line(line)] + [] + [Line("")] + rest == [Line(line), Line("")] + rest;
    assert [Line(line)] + [] == [Line(line)];
  }

  /** A non-empty header line without a colon, including a whitespace-only line,
      stops the parse with a missing value naming the whole line. */
  lemma LineWithoutColon(text: string, rest: seq<LineRead>, headers: map<string, string>)
    requires |text| > 0 && ':' !in text
    ensures ParseHeaders([Line(text)] + rest, headers) == Failure(MissingHeaderValue(text))
  {
  }

  /** A colon-free line after any number of good header lines stops the parse with
      a missing value naming that line. */
  lemma {:induction false} LineWithoutColonAfter(pre: seq<string>, x: string, rest: seq<LineRead>, headers: map<string, string>)
    requires forall i :: 0 <= i < |pre| ==> pre[i] != "" && ':' in pre[i]
    requires |x| > 0 && ':' !in x
    ensures ParseHeaders(AsRead(pre) + [Line(x)] + rest, headers) == Failure(MissingHeaderValue(x))
    decreases |pre|
  {
    if |pre| == 0 {
      assert AsRead(pre) + [Line(x)] + rest == [Line(x)] + rest;
      LineWithoutColon(x, rest, headers);
    } else {
      var lines := AsRead(pre) + [Line(x)] + rest;
      assert lines[0] == Line(pre[0]);
      assert lines[1..] == AsRead(pre[1..]) + [Line(x)] + rest;
      var kv := (HeaderName(pre[0]), HeaderValue(pre[0]));
      LineWithoutColonAfter(pre[1..], x, rest, headers[kv.0 := kv.1]);
    }
  }

  /** A read error after any number of good header lines fails the parse with `Io`,
      whatever follows it. */
  lemma {:induction false} ReadFailureAfter(pre: seq<string>, rest: seq<LineRead>, headers: map<string, string>)
    requires forall i :: 0 <= i < |pre| ==> pre[i] != "" && ':' in pre[i]
    ensures ParseHeaders(AsRead(pre) + [ReadFailure] + rest, headers) == Failure(Io)
    decreases |pre|
  {
    if |pre| == 0 {
      assert AsRead(pre) + [ReadFailure] + rest == [ReadFailure] + rest;
    } else {
      var lines := AsRead(pre) + [ReadFailure] + rest;
      assert lines[0] == Line(pre[0]);
      assert lines[1..] == AsRead(pre[1..]) + [ReadFailure] + rest;
      var kv := (HeaderName(pre[0]), HeaderValue(pre[0]));
      ReadFailureAfter(pre[1..], rest, headers[kv.0 := kv.1]);
    }
  }

  lemma WhitespaceLineIsNotTerminator(rest: seq<LineRead>, headers: map<string, string>)
    ensures ParseHeaders([Line(" ")] + rest, headers) == Failure(MissingHeaderValue(" "))
  {
    LineWithoutColon(" ", rest, headers);
  }

  /** Header lines `k: v` with colon-free, trimmed values read back as `(k, v)`. */
  lemma HeaderLineRoundTrip(k: string, v: string)
    requires ':' !in k && ':' !in v && Trimmed(v)
    ensures ParseHeaderLine(k + ": " + v) == Success((k, v))
  {
    var line := k + ": " + v;
    var value := [' '] + v;
    assert line == k + [':'] + value;
    SplitOnePiece(k, value, line);
    TrimSpaced(v);
    ParseFromPieces(line, k, value, []);
  }

  /** Text after a second colon is dropped: `k: v:x` reads as `(k, v)`. */
  lemma HeaderLineSecondColon(k: string, v: string, extra: string)
    requires ':' !in k && ':' !in v && ':' !in extra && Trimmed(v)
    ensures ParseHeaderLine(k + ": " + v + ":" + extra) == Success((k, v))
  {
    var line := k + ": " + v + ":" + extra;
    var value := [' '] + v;
    assert line == k + [':'] + value + [':'] + extra;
    SplitTwoPieces(k, value, extra, line);
    TrimSpaced(v);
    ParseFromPieces(line, k, value, [extra]);
  }

  lemma SplitOnePiece(k: string, value: string, line: string)
    requires ':' !in k && ':' !in value
    requires line == k + [':'] + value
    ensures SplitOn(line, ':') == [k, value] + []
  {
    assert line == Join([k, value], [':']);
    JoinSplitOn([k, value], ':');
  }

  lemma SplitTwoPieces(k: string, value: string, extra: string, line: string)
    requires ':' !in k && ':' !in value && ':' !in extra
    requires line == k + [':'] + value + [':'] + extra
    ensures SplitOn(line, ':') == [k, value] + [extra]
  {
    var pieces := [k, value, extra];
    assert Join([extra], [':']) == extra;
    JoinCons(value, [extra], [':']);
    JoinCons(k, [value, extra], [':']);
    assert pieces == [k] + [value, extra] && [value, extra] == [value] + [extra];
    assert Join(pieces, [':']) == line;
    assert forall i :: 0 <= i < |pieces| ==> ':' !in pieces[i];
    JoinSplitOn(pieces, ':');
    assert [k, value] + [extra] == pieces;
  }

  /** The single space after the colon is trimmed away. */
  lemma TrimSpaced(v: string)
    requires Trimmed(v)
    ensures Trim([' '] + v) == v
  {
    TrimPadded(" ", v, "");
    assert [' '] + v + "" == [' '] + v;
  }

  lemma ParseFromPieces(line: string, k: string, value: string, rest: seq<string>)
    requires SplitOn(line, ':') == [k, value] + rest
    ensures ParseHeaderLine(line) == Success((k, Trim(value)))
  {
  }

  /** A colon followed by nothing gives an empty value, not an error. */
  lemma EmptyValue(k: string)
    requires ':' !in k
    ensures ParseHeaderLine(k + ":") == Success((k, ""))
  {
    SplitOnePiece(k, "", k + ":");
    TrimPadded("", "", "");
    ParseFromPieces(k + ":", k, "", []);
  }

  /** Names of the given header lines. */
  function Names(texts: seq<string>): set<string>
  {
    set i | 0 <= i < |texts| :: HeaderName(texts[i])
  }

  lemma NamesCons(texts: seq<string>)
    requires |texts| > 0
    ensures Names(texts) == {HeaderName(texts[0])} + Names(texts[1..])
  {
    var tail := texts[1..];
    forall k | k in Names(texts) ensures k in {HeaderName(texts[0])} + Names(tail) {
      var i :| 0 <= i < |texts| && HeaderName(texts[i]) == k;
      if i > 0 { assert HeaderName(tail[i - 1]) == k; }
    }
    forall k | k in Names(tail) ensures k in Names(texts) {
      var i :| 0 <= i < |tail| && HeaderName(tail[i]) == k;
      assert HeaderName(texts[i + 1]) == k;
    }
  }

  /** No later line of `texts` has the name of line `i`. */
  predicate LastWithName(texts: seq<string>, i: nat)
    requires i < |texts|
  {
    forall j :: i < j < |texts| ==> HeaderName(texts[j]) != HeaderName(texts[i])
  }

  lemma LastWithNameCons(texts: seq<string>, i: nat)
    requires i < |texts| && LastWithName(texts, i)
    ensures i == 0 ==> HeaderName(texts[0]) !in Names(texts[1..])
    ensures i > 0 ==> LastWithName(texts[1..], i - 1)
  {
    var tail := texts[1..];
    if i > 0 {
      forall j | i - 1 < j < |tail| ensures HeaderName(tail[j]) != HeaderName(tail[i - 1]) {
        assert tail[j] == texts[j + 1];
      }
    }
  }

  /** The header map a successful scan of `texts` produces, from `headers`. */
  predicate ScanResult(texts: seq<string>, headers: map<string, string>, result: map<string, string>)
    requires forall i :: 0 <= i < |texts| ==> ':' in texts[i]
  {
    && result.Keys == headers.Keys + Names(texts)
    && (forall i :: 0 <= i < |texts| && LastWithName(texts, i) ==>
          result[HeaderName(texts[i])] == HeaderValue(texts[i]))
    && (forall k :: k in headers && k !in Names(texts) ==> result[k] == headers[k])
  }

  /** A header section of lines that all have a colon is accepted; its map holds
      exactly the names of those lines (plus the entries it started from), each
      name bound to the value of its LAST occurrence, and starting entries whose
      name does not occur are kept. */
  lemma {:induction false} HeadersLastWins(texts: seq<string>, headers: map<string, string>)
    requires forall i :: 0 <= i < |texts| ==> texts[i] != "" && ':' in texts[i]
    ensures ParseHeaders(AsRead(texts), headers).Success?
    ensures ScanResult(texts, headers, ParseHeaders(AsRead(texts), headers).value)
    decreases |texts|
  {
    if |texts| > 0 {
      var t0 := texts[0];
      var headers' := headers[HeaderName(t0) := HeaderValue(t0)];
      assert AsRead(texts)[1..] == AsRead(texts[1..]);
      HeadersLastWins(texts[1..], headers');
      assert ParseHeaders(AsRead(texts), headers) == ParseHeaders(AsRead(texts[1..]), headers');
      ScanStep(texts, headers, ParseHeaders(AsRead(texts), headers).value);
    }
  }

  /** One more line in front of the scanned ones: its entry is overwritten by a
      later line of the same name and kept otherwise. */
  lemma ScanStep(texts: seq<string>, headers: map<string, string>, m: map<string, string>)
    requires |texts| > 0 && forall i :: 0 <= i < |texts| ==> ':' in texts[i]
    requires ScanResult(texts[1..], headers[HeaderName(texts[0]) := HeaderValue(texts[0])], m)
    ensures ScanResult(texts, headers, m)
  {
    NamesCons(texts);
    ScanStepKept(texts, headers, m);
    ScanStepLast(texts, headers, m);
  }

  lemma ScanStepKept(texts: seq<string>, headers: map<string, string>, m: map<string, string>)
    requires |texts| > 0 && forall i :: 0 <= i < |texts| ==> ':' in texts[i]
    requires ScanResult(texts[1..], headers[HeaderName(texts[0]) := HeaderValue(texts[0])], m)
    requires Names(texts) == {HeaderName(texts[0])} + Names(texts[1..])
    ensures m.Keys == headers.Keys + Names(texts)
    ensures forall k :: k in headers && k !in Names(texts) ==> m[k] == headers[k]
  {
    var k0 := HeaderName(texts[0]);
    var headers' := headers[k0 := HeaderValue(texts[0])];
    assert headers'.Keys == headers.Keys + {k0};
    forall k | k in headers && k !in Names(texts) ensures m[k] == headers[k] {
      assert k != k0 && k !in Names(texts[1..]);
    }
  }

  lemma ScanStepLast(texts: seq<string>, headers: map<string, string>, m: map<string, string>)
    requires |texts| > 0 && forall i :: 0 <= i < |texts| ==> ':' in texts[i]
    requires ScanResult(texts[1..], headers[HeaderName(texts[0]) := HeaderValue(texts[0])], m)
    requires Names(texts) == {HeaderName(texts[0])} + Names(texts[1..])
    ensures forall i :: 0 <= i < |texts| && LastWithName(texts, i) ==>
      m[HeaderName(texts[i])] == HeaderValue(texts[i])
  {
    var tail := texts[1..];
    forall i | 0 <= i < |texts| && LastWithName(texts, i)
      ensures m[HeaderName(texts[i])] == HeaderValue(texts[i])
    {
      LastWithNameCons(texts, i);
      if i > 0 {
        assert tail[i - 1] == texts[i];
      }
    }
  }

  // ---------------------------------------------------------------------------
  // Properties of the request line

  /** An unknown method is reported first, however many tokens follow it. */
  lemma UnsupportedMethodFirst(tokens: seq<string>, rest: seq<LineRead>)
    requires |tokens| >= 1 && Words(tokens) && tokens[0] != "GET" && tokens[0] != "POST"
    ensures ParseRequest([Line(Join(tokens, " "))] + rest) == Failure(Unsupported(NotSupportedMethod(tokens[0])))
  {
    SplitWhitespaceJoin(tokens);
  }

  /** A bad protocol token is reported with the same kind as a bad method. */
  lemma UnsupportedProtocolKind(tokens: seq<string>, rest: seq<LineRead>)
    requires |tokens| >= 3 && Words(tokens)
    requires tokens[0] in {"GET", "POST"} && tokens[2] !in {"HTTP/1.1", "HTTP/2"}
    ensures ParseRequest([Line(Join(tokens, " "))] + rest) == Failure(Unsupported(NotSupportedMethod(tokens[2])))
  {
    SplitWhitespaceJoin(tokens);
  }

  /** Tokens after the third do not affect the parse. */
  lemma ExtraTokensIgnored(tokens: seq<string>, rest: seq<LineRead>)
    requires |tokens| >= 3 && Words(tokens)
    ensures ParseRequest([Line(Join(tokens, " "))] + rest) == ParseRequest([Line(Join(tokens[..3], " "))] + rest)
  {
    var a, b := Join(tokens, " "), Join(tokens[..3], " ");
    FirstThreeWords(tokens);
    SameFirstTokens(a, b);
    SameRequestLine(a, b, rest);
  }

  lemma FirstThreeWords(tokens: seq<string>)
    requires |tokens| >= 3 && Words(tokens)
    ensures |SplitWhitespace(Join(tokens, " "))| >= 3
    ensures SplitWhitespace(Join(tokens, " "))[..3] == SplitWhitespace(Join(tokens[..3], " "))
  {
    var first3 := tokens[..3];
    assert Words(first3) by {
      assert forall i :: 0 <= i < 3 ==> first3[i] == tokens[i];
    }
    SplitWhitespaceJoin(tokens);
    SplitWhitespaceJoin(first3);
  }

  lemma SameFirstTokens(a: string, b: string)
    requires |SplitWhitespace(a)| >= 3 && SplitWhitespace(a)[..3] == SplitWhitespace(b)
    ensures ParseRequestLine(a) == ParseRequestLine(b)
  {
    var t := SplitWhitespace(a);
    assert t[0] == t[..3][0] && t[1] == t[..3][1] && t[2] == t[..3][2];
  }

  lemma SameRequestLine(a: string, b: string, rest: seq<LineRead>)
    requires ParseRequestLine(a) == ParseRequestLine(b)
    ensures ParseRequest([Line(a)] + rest) == ParseRequest([Line(b)] + rest)
  {
    assert ([Line(a)] + rest)[1..] == rest;
    assert ([Line(b)] + rest)[1..] == rest;
  }
}

=== FILE: text.dfy ===
/** The `str` operations the HTTP layer relies on, over `seq<char>`. */
module Text {

  /** `char::is_whitespace`: the Unicode White_Space property. */
  predicate IsWhitespace(c: char) {
    var n := c as int;
    || 0x09 <= n <= 0x0D
    || n == 0x20 || n == 0x85 || n == 0xA0 || n == 0x1680
    || 0x2000 <= n <= 0x200A
    || n == 0x2028 || n == 0x2029 || n == 0x202F || n == 0x205F || n == 0x3000
  }

  predicate AllWhitespace(s: string) {
    forall i :: 0 <= i < |s| ==> IsWhitespace(s[i])
  }

  predicate NoWhitespace(s: string) {
    forall i :: 0 <= i < |s| ==> !IsWhitespace(s[i])
  }

  /** Words as `split_whitespace` yields them: nonempty and free of whitespace. */
  predicate Words(tokens: seq<string>) {
    forall i :: 0 <= i < |tokens| ==> |tokens[i]| > 0 && NoWhitespace(tokens[i])
  }

  /** `[String]::join`: the parts with `sep` between consecutive ones. */
  function Join(parts: seq<string>, sep: string): string
  {
    if |parts| == 0 then ""
    else if |parts| == 1 then parts[0]
    else parts[0] + sep + Join(parts[1..], sep)
  }

  // ---------------------------------------------------------------------------
  // split_whitespace

  /** Length of the longest whitespace-free prefix of `s`. */
  function WordLen(s: string): (n: nat)
    ensures n <= |s|
    ensures NoWhitespace(s[..n])
    ensures n < |s| ==> IsWhitespace(s[n])
  {
    if |s| == 0 || IsWhitespace(s[0]) then 0
    else
      var m := WordLen(s[1..]);
      assert forall i :: 1 <= i < 1 + m ==> s[i] == s[1..][..m][i - 1];
      1 + m
  }

  /** `str::split_whitespace`: the maximal whitespace-free runs of `s`, in order. */
  function SplitWhitespace(s: string): (words: seq<string>)
    ensures Words(words)
    decreases |s|
  {
    if |s| == 0 then []
    else if IsWhitespace(s[0]) then SplitWhitespace(s[1..])
    else
      var n := WordLen(s);
      [s[..n]] + SplitWhitespace(s[n..])
  }

  /** A line splits into no words exactly when it is empty or all whitespace. */
  lemma {:induction false} SplitWhitespaceEmpty(s: string)
    ensures SplitWhitespace(s) == [] <==> AllWhitespace(s)
    decreases |s|
  {
    if |s| > 0 && IsWhitespace(s[0]) {
      SplitWhitespaceEmpty(s[1..]);
      assert forall i :: 1 <= i < |s| ==> s[i] == s[1..][i - 1];
    }
  }

  lemma {:induction false} WordLenAppend(w: string, t: string)
    requires NoWhitespace(w)
    ensures WordLen(w + t) == |w| + WordLen(t)
    decreases |w|
  {
    if |w| == 0 {
      assert w + t == t;
    } else {
      assert (w + t)[1..] == w[1..] + t;
      WordLenAppend(w[1..], t);
    }
  }

  /** Words joined by single spaces split back into the same words. */
  lemma {:induction false} SplitWhitespaceJoin(words: seq<string>)
    requires Words(words)
    ensures SplitWhitespace(Join(words, " ")) == words
    decreases |words|
  {
    if |words| == 1 {
      var w := words[0];
      WordLenAppend(w, "");
      assert w + "" == w;
      assert w[..|w|] == w;
    } else if |words| > 1 {
      var w := words[0];
      var rest := Join(words[1..], " ");
      var s := w + " " + rest;
      assert s == w + (" " + rest);
      WordLenAppend(w, " " + rest);
      assert s[..|w|] == w;
      assert s[|w|..] == " " + rest;
      assert (" " + rest)[1..] == rest;
      SplitWhitespaceJoin(words[1..]);
    }
  }

  // ---------------------------------------------------------------------------
  // trim

  /** Number of whitespace characters `s` starts with. */
  function LeadingWhitespace(s: string): (n: nat)
    ensures n <= |s| && AllWhitespace(s[..n])
    ensures n < |s| ==> !IsWhitespace(s[n])
  {
    if |s| == 0 || !IsWhitespace(s[0]) then 0
    else
      var m := LeadingWhitespace(s[1..]);
      assert forall i :: 1 <= i < 1 + m ==> s[i] == s[1..][..m][i - 1];
      1 + m
  }

  /** Number of whitespace characters `s` ends with. */
  function TrailingWhitespace(s: string): (n: nat)
    ensures n <= |s| && AllWhitespace(s[|s| - n..])
    ensures n < |s| ==> !IsWhitespace(s[|s| - n - 1])
  {
    if |s| == 0 || !IsWhitespace(s[|s| - 1]) then 0
    else
      var p := s[..|s| - 1];
      var m := TrailingWhitespace(p);
      assert forall i :: |s| - 1 - m <= i < |s| - 1 ==> s[i] == p[|p| - m..][i - (|s| - 1 - m)];
      1 + m
  }

  /** Text with no whitespace at either end. */
  predicate Trimmed(s: string) {
    |s| == 0 || (!IsWhitespace(s[0]) && !IsWhitespace(s[|s| - 1]))
  }

  /** `str::trim`: `s` without its leading and trailing whitespace. */
  function Trim(s: string): (r: string)
    ensures Trimmed(r)
    ensures |r| <= |s|
  {
    var t := s[LeadingWhitespace(s)..];
    t[..|t| - TrailingWhitespace(t)]
  }

  lemma {:induction false} LeadingWhitespaceAppend(a: string, u: string)
    requires AllWhitespace(a)
    ensures LeadingWhitespace(a + u) == |a| + LeadingWhitespace(u)
    decreases |a|
  {
    if |a| == 0 {
      assert a + u == u;
    } else {
      assert (a + u)[1..] == a[1..] + u;
      LeadingWhitespaceAppend(a[1..], u);
    }
  }

  lemma {:induction false} TrailingWhitespaceAppend(u: string, b: string)
    requires AllWhitespace(b)
    ensures TrailingWhitespace(u + b) == TrailingWhitespace(u) + |b|
    decreases |b|
  {
    if |b| == 0 {
      assert u + b == u;
    } else {
      var b' := b[..|b| - 1];
      assert (u + b)[..|u + b| - 1] == u + b';
      TrailingWhitespaceAppend(u, b');
    }
  }

  /** Trimming removes exactly the whitespace padding around a trimmed text. */
  lemma TrimPadded(a: string, t: string, b: string)
    requires AllWhitespace(a) && AllWhitespace(b) && Trimmed(t)
    ensures Trim(a + t + b) == t
  {
    var s := a + t + b;
    assert s == a + (t + b);
    LeadingWhitespaceAppend(a, t + b);
    if |t| == 0 {
      assert t + b == b + "";
      LeadingWhitespaceAppend(b, "");
      assert s[LeadingWhitespace(s)..] == "";
    } else {
      assert s[LeadingWhitespace(s)..] == t + b;
      TrailingWhitespaceAppend(t, b);
      assert (t + b)[..|t|] == t;
    }
  }

  // ---------------------------------------------------------------------------
  // split on a character

  /** Position of the first `c` in `s`. */
  function FirstIndex(s: string, c: char): (i: nat)
    requires c in s
    ensures i < |s| && s[i] == c && c !in s[..i]
  {
    if s[0] == c then 0
    else
      var j := FirstIndex(s[1..], c);
      assert s[..1 + j] == [s[0]] + s[1..][..j];
      1 + j
  }

  /** A position holding `c` with no `c` before it is the first index of `c`. */
  lemma {:induction false} FirstIndexOf(s: string, c: char, i: nat)
    requires i < |s| && s[i] == c && c !in s[..i]
    ensures FirstIndex(s, c) == i
    decreases i
  {
    if i > 0 {
      assert s[0] in s[..i];
      assert s[1..][..i - 1] == s[1..i];
      assert forall x :: x in s[1..i] ==> x in s[..i];
      FirstIndexOf(s[1..], c, i - 1);
    }
  }

  /** The text of `s` before its first `sep`, or all of `s` when there is none. */
  function Field(s: string, sep: char): (f: string)
    ensures sep !in f && f <= s
    ensures |f| < |s| <==> sep in s
    ensures |f| < |s| ==> s[|f|] == sep
  {
    if sep in s then s[..FirstIndex(s, sep)] else s
  }

  /** `str::split` on one character: the pieces of `s` between occurrences of `sep`. */
  function SplitOn(s: string, sep: char): (pieces: seq<string>)
    ensures |pieces| >= 1 && pieces[0] == Field(s, sep)
    ensures |pieces| == 1 <==> sep !in s
    ensures forall i :: 0 <= i < |pieces| ==> sep !in pieces[i]
    decreases |s|
  {
    if sep !in s then [s]
    else
      var i := FirstIndex(s, sep);
      [s[..i]] + SplitOn(s[i + 1..], sep)
  }

  lemma JoinCons(p: string, rest: seq<string>, sep: string)
    requires |rest| > 0
    ensures Join([p] + rest, sep) == p + sep + Join(rest, sep)
  {
    assert ([p] + rest)[1..] == rest;
  }

  /** A text is what comes before position `i`, the character there, and the rest. */
  lemma SplitAround(s: string, i: nat)
    requires i < |s|
    ensures s == s[..i] + [s[i]] + s[i + 1..]
  {
    assert s[..i] + [s[i]] == s[..i + 1];
  }

  /** Joining the pieces with the separator gives back the original text. */
  lemma {:induction false} SplitOnJoin(s: string, sep: char)
    ensures Join(SplitOn(s, sep), [sep]) == s
    decreases |s|
  {
    if sep in s {
      var i := FirstIndex(s, sep);
      var rest := SplitOn(s[i + 1..], sep);
      JoinCons(s[..i], rest, [sep]);
      SplitOnJoin(s[i + 1..], sep);
      SplitAround(s, i);
    }
  }

  /** Separator-free pieces joined by the separator split back into the same pieces. */
  lemma {:induction false} JoinSplitOn(pieces: seq<string>, sep: char)
    requires |pieces| >= 1
    requires forall i :: 0 <= i < |pieces| ==> sep !in pieces[i]
    ensures SplitOn(Join(pieces, [sep]), sep) == pieces
    decreases |pieces|
  {
    if |pieces| > 1 {
      var p := pieces[0];
      var rest := Join(pieces[1..], [sep]);
      var s := p + [sep] + rest;
      assert s[|p|] == sep;
      assert s[..|p|] == p;
      FirstIndexOf(s, sep, |p|);
      assert s[|p| + 1..] == rest;
      JoinSplitOn(pieces[1..], sep);
    }
  }
}

=== FILE: utf8.dfy ===
/** Byte length of a string in UTF-8 (`String::len`), following section 3 of RFC 3629. */
module Utf8 {

  predicate IsAscii(s: string) {
    forall i :: 0 <= i < |s| ==> s[i] as int < 0x80
  }

  /** Number of bytes UTF-8 uses for one scalar value. */
  function Width(c: char): nat
  {
    if c as int < 0x80 then 1
    else if c as int < 0x800 then 2
    else if c as int < 0x1_0000 then 3
    else 4
  }

  /** Number of bytes of the UTF-8 encoding of `s`. */
  function Utf8Len(s: string): (n: nat)
    ensures |s| <= n <= 4 * |s|
    ensures n == |s| <==> IsAscii(s)
  {
    if |s| == 0 then 0
    else
      var n := Width(s[0]) + Utf8Len(s[1..]);
      assert forall i :: 1 <= i < |s| ==> s[i] == s[1..][i - 1];
      n
  }
}

=== FILE: wire.dfy ===
/** Properties joining the writer and the parser: the lines a client sends parse
    back to the request they encode, the head the server writes reads back to its
    header map, and Content-Length counts exactly the bytes after the head. */
module Wire {
  import opened Wrappers
  import opened Text
  import opened Decimal
  import opened Utf8
  import opened Lines
  import opened Framing
  import opened HttpRequest
  import opened HttpResponse
  import opened Server
  import opened Handler

  // ---------------------------------------------------------------------------
  // Requests

  /** A header entry the parser reads back unchanged from `name: value`. */
  predicate ParsableField(name: string, value: string) {
    ':' !in name && ':' !in value && Trimmed(value)
  }

  predicate ParsableHeaders(m: map<string, string>) {
    forall k :: k in m ==> ParsableField(k, m[k])
  }

  /** Requests the request syntax can express: a whitespace-free path and headers
      without colons or padding in their values. */
  predicate Expressible(req: Request) {
    |req.path| > 0 && NoWhitespace(req.path) && ParsableHeaders(req.headers)
  }

  function RequestLine(req: Request): string
  {
    Join([MethodToken(req.httpMethod), req.path, DisplayProtocol(req.protocol)], " ")
  }

  /** The lines a client sends for `req`, headers in `order`, ending with the
      blank line. */
  function EncodeRequest(req: Request, order: seq<string>): seq<string>
    requires IsOrdering(order, req.headers.Keys)
  {
    [RequestLine(req)] + HeaderLines(req.headers, order) + [""]
  }

  lemma AsReadAppend(a: seq<string>, b: seq<string>)
    ensures AsRead(a + b) == AsRead(a) + AsRead(b)
  {
  }

  /** The entries of `m` whose keys `order` lists. */
  function Listed(m: map<string, string>, order: seq<string>): map<string, string>
  {
    map k | k in m && k in order :: m[k]
  }

  lemma ListedStep(m: map<string, string>, order: seq<string>, headers: map<string, string>)
    requires |order| > 0 && order[0] in m
    ensures headers[order[0] := m[order[0]]] + Listed(m, order[1..]) == headers + Listed(m, order)
  {
  }

  lemma ListedAll(m: map<string, string>, order: seq<string>)
    requires IsOrdering(order, m.Keys)
    ensures map[] + Listed(m, order) == m
  {
  }

  lemma HeaderBlockLines(m: map<string, string>, order: seq<string>, tail: seq<LineRead>)
    requires |order| > 0 && forall i :: 0 <= i < |order| ==> order[i] in m
    ensures AsRead(HeaderLines(m, order)) + [Line("")] + tail
         == [Line(HeaderLine(order[0], m[order[0]]))] + (AsRead(HeaderLines(m, order[1..])) + [Line("")] + tail)
  {
    AsReadAppend([HeaderLine(order[0], m[order[0]])], HeaderLines(m, order[1..]));
  }

  /** The header loop reads a block of `name: value` lines back into the entries
      they came from, on top of the map it starts with. */
  lemma {:induction false} ParseHeaderBlock(m: map<string, string>, order: seq<string>, headers: map<string, string>, tail: seq<LineRead>)
    requires forall i :: 0 <= i < |order| ==> order[i] in m
    requires ParsableHeaders(m)
    ensures ParseHeaders(AsRead(HeaderLines(m, order)) + [Line("")] + tail, headers)
         == Success(headers + Listed(m, order))
    decreases |order|
  {
    if |order| == 0 {
      assert (AsRead(HeaderLines(m, order)) + [Line("")] + tail)[0] == Line("");
      assert headers + Listed(m, order) == headers;
    } else {
      var k0 := order[0];
      var rest := order[1..];
      var next := AsRead(HeaderLines(m, rest)) + [Line("")] + tail;
      HeaderLineRoundTrip(k0, m[k0]);
      HeaderBlockLines(m, order, tail);
      assert ([Line(HeaderLine(k0, m[k0]))] + next)[1..] == next;
      ParseHeaderBlock(m, rest, headers[k0 := m[k0]], tail);
      ListedStep(m, order, headers);
    }
  }

  lemma TokensHaveNoWhitespace(req: Request)
    ensures NoWhitespace(MethodToken(req.httpMethod)) && |MethodToken(req.httpMethod)| > 0
    ensures NoWhitespace(DisplayProtocol(req.protocol)) && |DisplayProtocol(req.protocol)| > 0
  {
  }

  /** Round trip: the parser recovers every expressible request from the lines
      that encode it, whatever follows the blank line. */
  lemma RequestRoundTrip(req: Request, order: seq<string>, tail: seq<LineRead>)
    requires Expressible(req) && IsOrdering(order, req.headers.Keys)
    ensures ParseRequest(AsRead(EncodeRequest(req, order)) + tail) == Success(req)
  {
    var hl := HeaderLines(req.headers, order);
    var words := [MethodToken(req.httpMethod), req.path, DisplayProtocol(req.protocol)];
    TokensHaveNoWhitespace(req);
    SplitWhitespaceJoin(words);
    MethodRoundTrip(req.httpMethod);
    ProtocolRoundTrip(req.protocol);
    AsReadAppend([RequestLine(req)] + hl, [""]);
    AsReadAppend([RequestLine(req)], hl);
    var lines := AsRead(EncodeRequest(req, order)) + tail;
    assert lines[0] == Line(RequestLine(req));
    assert lines[1..] == AsRead(hl) + [Line("")] + tail;
    ParseHeaderBlock(req.headers, order, map[], tail);
    ListedAll(req.headers, order);
  }

  /** Two lines and the blank line, as they arrive on the wire. */
  lemma SplitTwoLines(a: string, b: string, s: string)
    requires '\n' !in a && '\n' !in b
    requires s == a + "\r\n" + b + "\r\n" + "\r\n"
    ensures SplitLines(s) == [a, b, ""]
  {
    var lines := [a, b, ""];
    CrlfTerminated3(a, b, "");
    var head := a + "\r\n" + b + "\r\n";
    assert head + "" == head;
    assert CrlfTerminated(lines) == s;
    assert forall i :: 0 <= i < |lines| ==> '\n' !in lines[i];
    SplitLinesRoundTrip(lines);
  }

  lemma HostLines(s: string)
    requires s == "GET / HTTP/1.1\r\nHost: x\r\n\r\n"
    ensures SplitLines(s) == ["GET / HTTP/1.1", "Host: x", ""]
  {
    SplitTwoLines("GET / HTTP/1.1", "Host: x", s);
  }

  /** A request line, one header and the blank line, as a client sends them. */
  lemma HostExample(s: string)
    requires s == "GET / HTTP/1.1\r\nHost: x\r\n\r\n"
    ensures ParseRequest(AsRead(SplitLines(s)))
         == Success(Request(Get, "/", Http11, map["Host" := "x"]))
  {
    var req := Request(Get, "/", Http11, map["Host" := "x"]);
    var enc := ["GET / HTTP/1.1", "Host: x", ""];
    HostLines(s);
    HostEncoding();
    HostExpressible();
    RequestRoundTrip(req, ["Host"], []);
    assert AsRead(enc) + [] == AsRead(enc);
  }

  lemma HostEncoding()
    ensures IsOrdering(["Host"], map["Host" := "x"].Keys)
    ensures EncodeRequest(Request(Get, "/", Http11, map["Host" := "x"]), ["Host"])
         == ["GET / HTTP/1.1", "Host: x", ""]
  {
    var m := map["Host" := "x"];
    assert HeaderLines(m, ["Host"]) == ["Host: x"] by {
      assert ["Host"][1..] == [];
      assert HeaderLines(m, ["Host"]) == [HeaderLine("Host", m["Host"])] + HeaderLines(m, []);
      assert m["Host"] == "x";
      assert HeaderLine("Host", "x") == "Host: x";
      assert HeaderLines(m, []) == [];
    }
    RootRequestLine(m);
  }

  lemma RootRequestLine(m: map<string, string>)
    ensures RequestLine(Request(Get, "/", Http11, m)) == "GET / HTTP/1.1"
  {
    assert ["GET", "/", "HTTP/1.1"][1..] == ["/", "HTTP/1.1"];
    assert ["/", "HTTP/1.1"][1..] == ["HTTP/1.1"];
  }

  lemma HostExpressible()
    ensures Expressible(Request(Get, "/", Http11, map["Host" := "x"]))
  {
    assert ParsableField("Host", "x");
  }

  /** One line and the blank line, as they arrive on the wire. */
  lemma SplitOneLine(a: string, s: string)
    requires '\n' !in a
    requires s == a + "\r\n" + "\r\n"
    ensures SplitLines(s) == [a, ""]
  {
    var lines := [a, ""];
    CrlfTerminated2(a, "");
    var head := a + "\r\n";
    assert head + "" == head;
    assert CrlfTerminated(lines) == s;
    assert forall i :: 0 <= i < |lines| ==> '\n' !in lines[i];
    SplitLinesRoundTrip(lines);
  }

  lemma NoHeaderLines(s: string)
    requires s == "GET / HTTP/1.1\r\n\r\n"
    ensures SplitLines(s) == ["GET / HTTP/1.1", ""]
  {
    SplitOneLine("GET / HTTP/1.1", s);
  }

  lemma NoHeadersEncoding()
    ensures IsOrdering([], Request(Get, "/", Http11, map[]).headers.Keys)
    ensures EncodeRequest(Request(Get, "/", Http11, map[]), []) == ["GET / HTTP/1.1", ""]
    ensures Expressible(Request(Get, "/", Http11, map[]))
  {
    RootRequestLine(map[]);
    assert HeaderLines(map[], []) == [];
  }

  /** A request line followed at once by the blank line has no headers. */
  lemma NoHeadersExample(s: string)
    requires s == "GET / HTTP/1.1\r\n\r\n"
    ensures ParseRequest(AsRead(SplitLines(s))) == Success(Request(Get, "/", Http11, map[]))
  {
    var req := Request(Get, "/", Http11, map[]);
    var enc := ["GET / HTTP/1.1", ""];
    NoHeaderLines(s);
    NoHeadersEncoding();
    RequestRoundTrip(req, [], []);
    assert AsRead(enc) + [] == AsRead(enc);
  }

  /** An empty stream is an empty request. */
  lemma EmptyStreamExample(s: string)
    requires s == ""
    ensures ParseRequest(AsRead(SplitLines(s))) == Failure(EmptyRequest)
  {
  }

  // ---------------------------------------------------------------------------
  // Responses

  /** Header entries that fit on one line each. */
  predicate SingleLineHeaders(m: map<string, string>) {
    forall k :: k in m ==> SingleLine(k) && SingleLine(m[k])
  }

  lemma StatusLineIsSingle(r: Response)
    ensures |StatusLine(r)| > 0 && SingleLine(StatusLine(r))
  {
  }

  lemma HeaderLinesAreSingle(m: map<string, string>, order: seq<string>)
    requires forall i :: 0 <= i < |order| ==> order[i] in m
    requires SingleLineHeaders(m)
    ensures forall i :: 0 <= i < |HeaderLines(m, order)| ==>
      |HeaderLines(m, order)[i]| > 0 && SingleLine(HeaderLines(m, order)[i])
  {
    HeaderLinesAt(m, order);
  }

  /** The rendering as a head of lines joined by CRLF, a blank line, then the body. */
  lemma RenderAsLines(r: Response, order: seq<string>)
    requires IsOrdering(order, r.headers.Keys) && |r.headers| > 0
    ensures StatusHeadersAndData(r, order)
         == Join([StatusLine(r)] + HeaderLines(r.headers, order), "\r\n") + "\r\n\r\n" + r.data
  {
    HeaderBlockEntries(r.headers, order);
    var hl := HeaderLines(r.headers, order);
    assert ([StatusLine(r)] + hl)[1..] == hl;
  }

  /** Where a client finds the body of a rendered response: right after the
      header block, except that an empty header map leaves a stray CRLF in front
      of the body. */
  lemma RenderedBody(r: Response, order: seq<string>)
    requires IsOrdering(order, r.headers.Keys) && SingleLineHeaders(r.headers)
    ensures BodyAfterHead(StatusHeadersAndData(r, order))
         == Some(if |r.headers| == 0 then "\r\n" + r.data else r.data)
  {
    var out := StatusHeadersAndData(r, order);
    StatusLineIsSingle(r);
    if |r.headers| == 0 {
      assert order == [] by {
        HeaderBlockEntries(r.headers, order);
      }
      assert out == StatusLine(r) + "\r\n\r\n" + ("\r\n" + r.data);
      LastLine(StatusLine(r), "\r\n" + r.data);
    } else {
      var head := [StatusLine(r)] + HeaderLines(r.headers, order);
      RenderAsLines(r, order);
      HeaderLinesAreSingle(r.headers, order);
      BlankLineAfterLines(head, r.data);
      var p := |Join(head, "\r\n")|;
      assert out[p + 4..] == r.data;
    }
  }

  lemma DigitsAreSingleLine(s: string)
    requires AllDigits(s)
    ensures SingleLine(s)
  {
  }

  /** Framing: in the rendering of any `from_html` response, whatever the header
      order, Content-Length read as a decimal is the UTF-8 byte count of
      everything after the first blank line. */
  lemma FromHtmlFraming(status: HttpStatus, protocol: HttpProtocol, data: string, order: seq<string>)
    requires IsOrdering(order, {"Content-Type", "Content-Length"})
    ensures var r := FromHtml(status, protocol, data);
      var body := BodyAfterHead(StatusHeadersAndData(r, order));
      body.Some? && ParseDecimal(r.headers["Content-Length"]) == Some(Utf8Len(body.value))
  {
    var r := FromHtml(status, protocol, data);
    DigitsAreSingleLine(r.headers["Content-Length"]);
    assert SingleLine("Content-Type") && SingleLine("Content-Length") && SingleLine("text/html");
    assert SingleLineHeaders(r.headers);
    RenderedBody(r, order);
    assert |r.headers| != 0 by {
      assert "Content-Type" in r.headers;
    }
  }

  /** The rendering as CRLF-terminated lines (the head and a blank line) followed
      by the body. */
  lemma RenderAsCrlfLines(r: Response, order: seq<string>)
    requires IsOrdering(order, r.headers.Keys) && |r.headers| > 0
    ensures StatusHeadersAndData(r, order)
         == CrlfTerminated([StatusLine(r)] + HeaderLines(r.headers, order) + [""]) + r.data
  {
    var head := [StatusLine(r)] + HeaderLines(r.headers, order);
    RenderAsLines(r, order);
    JoinedHeadCrlf(head, r.data);
  }

  lemma SplitRendered(r: Response, order: seq<string>)
    requires IsOrdering(order, r.headers.Keys) && |r.headers| > 0
    requires SingleLineHeaders(r.headers)
    ensures SplitLines(StatusHeadersAndData(r, order))
         == [StatusLine(r)] + HeaderLines(r.headers, order) + [""] + SplitLines(r.data)
  {
    var hl := HeaderLines(r.headers, order);
    var head := [StatusLine(r)] + hl + [""];
    RenderAsCrlfLines(r, order);
    StatusLineIsSingle(r);
    HeaderLinesAreSingle(r.headers, order);
    assert forall i :: 0 <= i < |head| ==> '\n' !in head[i] by {
      forall i | 0 <= i < |head| ensures '\n' !in head[i] {
        if 0 < i < |head| - 1 {
          assert head[i] == hl[i - 1];
        }
      }
    }
    SplitLinesAppend(head, r.data);
  }

  /** A header block written in any order, then the blank line, reads back as
      exactly its map, whatever lines follow. */
  lemma HeaderBlockReadBack(m: map<string, string>, order: seq<string>, rest: seq<string>)
    requires IsOrdering(order, m.Keys) && ParsableHeaders(m)
    ensures ParseHeaders(AsRead(HeaderLines(m, order) + [""] + rest), map[]) == Success(m)
  {
    var hl := HeaderLines(m, order);
    calc {
      AsRead(hl + [""] + rest);
      { AsReadAppend(hl + [""], rest); }
      AsRead(hl + [""]) + AsRead(rest);
      { AsReadAppend(hl, [""]); }
      AsRead(hl) + AsRead([""]) + AsRead(rest);
      { assert AsRead([""]) == [Line("")]; }
      AsRead(hl) + [Line("")] + AsRead(rest);
    }
    ParseHeaderBlock(m, order, map[], AsRead(rest));
    ListedAll(m, order);
  }

  lemma HeadLinesReadBack(first: string, m: map<string, string>, order: seq<string>, rest: seq<string>, lines: seq<string>)
    requires IsOrdering(order, m.Keys) && ParsableHeaders(m)
    requires lines == [first] + HeaderLines(m, order) + [""] + rest
    ensures |lines| > 0 && lines[0] == first
    ensures ParseHeaders(AsRead(lines[1..]), map[]) == Success(m)
  {
    var block := HeaderLines(m, order) + [""] + rest;
    assert lines == [first] + block;
    assert lines[1..] == block;
    HeaderBlockReadBack(m, order, rest);
  }

  /** The server's head reads back through the parser's own line and header
      readers: the status line first, then exactly the response's header map. */
  lemma ResponseHeadReadBack(r: Response, order: seq<string>)
    requires IsOrdering(order, r.headers.Keys) && |r.headers| > 0
    requires ParsableHeaders(r.headers) && SingleLineHeaders(r.headers)
    ensures var lines := SplitLines(StatusHeadersAndData(r, order));
      && |lines| > 0 && lines[0] == StatusLine(r)
      && ParseHeaders(AsRead(lines[1..]), map[]) == Success(r.headers)
  {
    SplitRendered(r, order);
    HeadLinesReadBack(StatusLine(r), r.headers, order, SplitLines(r.data), SplitLines(StatusHeadersAndData(r, order)));
  }

  lemma DigitsParsable(s: string)
    requires |s| > 0 && AllDigits(s)
    ensures ':' !in s && Trimmed(s) && SingleLine(s)
  {
  }

  /** Every `from_html` header map meets the read-back conditions, so the head of any
      `from_html` response reads back as its status line and exactly its two headers. */
  lemma FromHtmlHeadReadBack(status: HttpStatus, protocol: HttpProtocol, data: string, order: seq<string>)
    requires IsOrdering(order, {"Content-Type", "Content-Length"})
    ensures var r := FromHtml(status, protocol, data);
      && ParsableHeaders(r.headers) && SingleLineHeaders(r.headers)
      && var lines := SplitLines(StatusHeadersAndData(r, order));
      && |lines| > 0 && lines[0] == StatusLine(r)
      && ParseHeaders(AsRead(lines[1..]), map[]) == Success(r.headers)
  {
    var r := FromHtml(status, protocol, data);
    FromHtmlHeadersReadable(status, protocol, data);
    ResponseHeadReadBack(r, order);
  }

  lemma FromHtmlHeadersReadable(status: HttpStatus, protocol: HttpProtocol, data: string)
    ensures var m := FromHtml(status, protocol, data).headers;
      |m| > 0 && ParsableHeaders(m) && SingleLineHeaders(m)
  {
    var m := FromHtml(status, protocol, data).headers;
    DigitsParsable(m["Content-Length"]);
    PlainWord("Content-Type");
    PlainWord("Content-Length");
    PlainWord("text/html");
    TwoEntries(m, "Content-Type", "Content-Length");
  }

  /** A colon-free, single-line, trimmed literal. */
  lemma PlainWord(s: string)
    requires s in {"Content-Type", "Content-Length", "text/html"}
    ensures ':' !in s && SingleLine(s) && Trimmed(s)
  {
  }

  lemma TwoEntries(m: map<string, string>, a: string, b: string)
    requires m.Keys == {a, b}
    requires ParsableField(a, m[a]) && SingleLine(a) && SingleLine(m[a])
    requires ParsableField(b, m[b]) && SingleLine(b) && SingleLine(m[b])
    ensures |m| > 0 && ParsableHeaders(m) && SingleLineHeaders(m)
  {
    assert a in m;
  }

  // ---------------------------------------------------------------------------
  // End to end

  /** Any expressible request gets a response when both pages are readable; it
      echoes the request's protocol and is Ok exactly for GET "/". */
  lemma HandleEncodedRequest(req: Request, order: seq<string>, pages: map<string, string>, tail: seq<LineRead>)
    requires Expressible(req) && IsOrdering(order, req.headers.Keys)
    requires HelloPage in pages && NotFoundPage in pages
    ensures var r := HandleConnection(AsRead(EncodeRequest(req, order)) + tail, pages);
      && r.Some?
      && r.value.protocol == req.protocol
      && (r.value.status == Ok <==> req.httpMethod == Get && req.path == "/")
  {
    RequestRoundTrip(req, order, tail);
  }

  /** A blank first line or an empty connection produces no response. */
  lemma NoResponseOnParseFailure(rest: seq<LineRead>, pages: map<string, string>)
    ensures HandleConnection([], pages) == None
    ensures HandleConnection([Line("")] + rest, pages) == None
  {
  }
}

=== FILE: wrappers.dfy ===
/** Optional values and fallible outcomes shared by the HTTP modules. */
module Wrappers {

  /** A value that may be absent. */
  datatype Option<+T> = None | Some(value: T)

  /** The outcome of a fallible step: a value, or the error that stopped it. */
  datatype Result<+T, +E> = Success(value: T) | Failure(error: E)
}
